=== FILE: README.md ===
# Aircraft alert server: matching engine and broadcast hub

This is a Dafny model of the core of the aircraft alert server (`main.go`, with its record types from
`models.go`). The server receives ADS-B telemetry on `POST /api/aircraft`. It checks each aircraft
against the stored watch criteria, appends one alert per criterion that fires to an append-only log,
and pushes an `aircraftUpdate` Server-Sent Events frame plus one `alert` frame per alert through a
broadcast hub. Every client streaming `/api/events` has its own bounded send queue in that hub.

The model is sequential, as a modelling choice: one request runs to completion before the next
begins. The server's mutex covers one ingestion's whole match, append and broadcast sequence
(main.go:141-176), the alert-log snapshot (main.go:182-186) and the criteria append
(main.go:197-199). It does not cover request decoding or the `/api/events` loop, and it does not
stop the hub from taking another client's register or unregister between two broadcasts of one
ingestion. The hub's single goroutine handles one register, unregister or broadcast at a time. The
interleavings the source still allows are listed under "## Left out".

| file | module | models |
|---|---|---|
| `models.dfy` | `Models` | `Aircraft`, `AlertCriteria`, `Alert` (models.go:6-31), `Option` |
| `matching.dfy` | `Matching` | the match predicate and the alerts one ingestion raises (main.go:149-165) |
| `sse.dfy` | `Sse` | event-stream frames, a reader for them, and the frames one ingestion emits (main.go:142-173) |
| `hub.dfy` | `Fanout` | the hub as a value (`HubState`) and the three arms of `Hub.run` on it; class `Hub` performs the same arms in place (main.go:45-92) |
| `events.dfy` | `Events` | the `/api/events` select loop as a state machine; class `Stream` runs it against the hub (main.go:205-246) |
| `server.dfy` | `Server` | class `App`: the criteria list, the alert log, the hub and the four API handlers (main.go:38-43, 94-106, 130-246) |

Client identity is a `ClientId` (the Go map is keyed by `*Client`). Every client's `Send` channel
lives in the hub's `sends` map as a `Chan(buf, closed)`. Hub membership is the `clients` set.
`Close` requires an open channel. A second `close` is a run-time panic in Go, so every caller
proving that requirement proves that no channel is ever closed twice.

The clock is a parameter `now: nat -> Time`:
- reading `now(0)` stamps the aircraft;
- reading `now(1 + k)` stamps the k-th alert of the same request.

`json.Marshal` is a parameter returning `Option<string>`, so `None` is a marshalling failure. A
request body arrives already decoded, as an `Option`, where `None` is a decoding failure.

## Model

| member | source | states |
|---|---|---|
| Matching.Matches | main.go:150-156 | The match test: the criterion's ICAO is non-empty and equal to the aircraft's, or its callsign is non-empty and equal to the aircraft's. |
| Matching.AlertMessage | main.go:161 | The operator text `"Monitored aircraft detected: " + callsign + " (" + icao + ")"`. |
| Matching.MakeAlert | main.go:159-164 | The alert record: a copy of the aircraft, the message, the criterion that fired and the clock reading. |
| Matching.MatchIndices | main.go:149-157 | Lists only positions of criteria that fire, strictly increasing, so in the order the criteria were stored. |
| Matching.MatchIndicesComplete | main.go:149-157 | Every criterion that fires has its position in that list. |
| Matching.Evaluate | main.go:149-165 | An ingestion raises at most one alert per stored criterion. |
| Matching.EvaluateFollowsMatches | main.go:149-165 | Exactly one alert per firing criterion. Alert k is the alert for the k-th firing criterion, in stored order, stamped `now(first + k)`. |
| Matching.EvaluateRaisesOnlyMatches | main.go:158-165 | Every alert holds a copy of the aircraft, the message `"Monitored aircraft detected: " + callsign + " (" + icao + ")"`, and a criterion that fires. The k-th is stamped `now(first + k)`. |
| Matching.CriterionFiresOnEitherField | main.go:149-165 | A criterion added after others raises exactly one alert, appended at the end, when its set ICAO or its set callsign equals the aircraft's. Otherwise the alerts are unchanged. So a criterion with both fields set fires on either field alone. |
| Matching.EmptyCriterionRaisesNothing | main.go:150-156 | A criterion with neither field set never raises an alert, whatever the aircraft. |
| Matching.NoAlertIffNoMatch | main.go:149-158 | No alert is raised exactly when no stored criterion fires (both directions). |
| Matching.TwoMatchesTwoAlerts | main.go:149-165 | Two firing criteria give two alerts, in stored order: no deduplication. |
| Matching.OneCriterionAlertCount | main.go:150-165 | A single criterion gives one alert if it fires, none otherwise. |
| Sse.Frame | main.go:146 | The frame text `"event: " + name + "\ndata: " + payload + "\n\n"`, used for both the `aircraftUpdate` and the `alert` events. |
| Sse.FrameRoundTrip | main.go:146 | A reader of line-feed-terminated frames recovers the name and payload of every frame the server builds, when neither contains a line feed. |
| Sse.ParsedFrameIsFrame | main.go:172 | Whatever the reader accepts as one frame is exactly the frame the server builds from the name and payload read. |
| Sse.AlertFrames | main.go:168-173 | At most one `alert` frame per alert. |
| Sse.AlertFramesAllEncoded | main.go:168-173 | When every encoding succeeds, frame k is the `alert` frame of alert k. |
| Sse.AlertFramesAppend | main.go:149-175 | The frames of two runs of alerts are the frames of the first followed by those of the second. |
| Sse.FailedEncodingSkipsOnlyItsFrame | main.go:168-173 | An alert whose encoding fails loses its own frame and no other. |
| Sse.IngestFrames | main.go:142-173 | What one ingestion broadcasts: the `aircraftUpdate` frame unless encoding the aircraft fails, then the `alert` frames. |
| Sse.IngestFramesOrder | main.go:142-173 | When every encoding succeeds, the `aircraftUpdate` frame comes first, then one `alert` frame per alert in alert order. |
| Fanout.Close | main.go:77 | Closing keeps the buffered messages and is only allowed on an open channel. |
| Fanout.Receive | main.go:230-234 | A receive gets the oldest buffered message even after close. It reports a drained channel only when closed and empty, and would block otherwise. |
| Fanout.Deliver | main.go:82-88 | The non-blocking send: the message is appended exactly when the queue holds fewer than 256 messages. Otherwise the channel is closed with its buffer unchanged. |
| Fanout.AfterRegister | main.go:71-72 | The register arm: the client is added to the member set and no channel changes. |
| Fanout.AfterUnregister | main.go:74-79 | Unregister keeps the hub invariant and removes the client. It keeps every channel in the map; a member's channel is closed. |
| Fanout.AfterBroadcast | main.go:80-89 | Broadcast keeps the hub invariant: every member's channel is open and holds at most 256 messages. Members can only be dropped. |
| Fanout.AfterBroadcastAll | main.go:80-89 | The same holds across any number of broadcasts. |
| Fanout.BroadcastAllConcat | main.go:80-89 | Broadcasting one list then another equals broadcasting their concatenation. |
| Fanout.RegisterKeepsValid | main.go:71-72 | Register keeps the invariant and touches no channel. Registering again changes nothing (map insert). |
| Fanout.UnregisterEffect | main.go:74-79 | A member is removed and its channel closed with its messages kept. A non-member leaves the hub unchanged. No other client changes, and a second unregister is a no-op. |
| Fanout.BroadcastEffect | main.go:80-89 | Per client: a member with room gets the message at the back. A member with a full queue is dropped and closed. A non-member is untouched. |
| Fanout.BroadcastAllAppends | main.go:80-89 | A member with room for every message receives them all, after what it held and in FIFO order, and stays a member. |
| Fanout.BroadcastAllEvicts | main.go:80-89 | A member without room keeps exactly the messages that fitted, then is dropped and closed. |
| Fanout.BroadcastAllSkipsNonMembers | main.go:80-89 | A client that is not a member receives none of the broadcasts. |
| Fanout.HubKeepsAccounted | main.go:68-92 | No arm leaves a running endpoint's client unregistered while its channel is still open. |
| Fanout.Hub.constructor | main.go:59-66 | A new hub has no clients. |
| Fanout.Hub.NewClient | main.go:216-219 | A new client with a fresh identity and an empty, open channel, not yet registered. |
| Fanout.Hub.Register | main.go:71-72 | The in-place register arm ends in `AfterRegister` and keeps the invariant. |
| Fanout.Hub.Unregister | main.go:74-79 | The in-place unregister arm ends in `AfterUnregister` and keeps the invariant. |
| Fanout.Hub.Broadcast | main.go:80-89 | Visiting the members in any order the map yields ends in the one state `AfterBroadcast` describes. |
| Fanout.Hub.ReceiveOn | main.go:230-234 | The endpoint's receive takes the front message or observes the close, changing only its own channel. |
| Events.Step | main.go:229-244 | One pass of the select moves at most one message from the channel to the endpoint. Nothing is lost or reordered, and the closed flag is unchanged. Every taken message is written except the one whose write failed. After a return, a pass changes nothing. The loop ends on a closed channel only when it is drained. |
| Events.Run | main.go:228-245 | Across any number of passes: nothing is lost or reordered, the closed flag is unchanged, every taken message is written except one whose write failed, nothing changes after a return, and a closed-channel return happens only with the channel drained. |
| Events.StepExits | main.go:229-244 | Why a pass returns, each in both directions. A closed, drained channel when the context does not win the select. A taken message whose write fails. A done context that wins the select, or that finds nothing ready on the channel. |
| Events.RunDrainsThenExits | main.go:230-234 | On a healthy connection, a closed channel has every buffered message written, and then the loop returns because the channel is closed. |
| Events.RunEndsOnCancel | main.go:241-243 | A pass whose context is done and wins the select, or finds the channel empty and open, returns without taking a message. |
| Events.RunEndsOnWriteFailure | main.go:235-238 | A pass that takes a message and fails to write it returns. The message counts as taken but not written. |
| Events.RunTakesAtMostOnePerPass | main.go:228-245 | Across any number of passes, at most one message is taken per pass. |
| Events.RunStopsAtExit | main.go:228-245 | Once the loop has returned, further wakes change nothing. |
| Events.RunDeliversInOrder | main.go:230-240 | On a healthy connection, passes write the buffered messages one by one in the order the hub queued them. |
| Events.Stream.Open | main.go:216-220 | Makes a client with an empty capacity-256 channel, registers it exactly once, and keeps the hub it registered with. |
| Events.Stream.Pass | main.go:229-244 | One pass performed in place on the stream's own hub is exactly `Step` on the client's channel. No other client or channel changes. |
| Events.Stream.Pump | main.go:222-245 | The loop performed in place on the stream's own hub is exactly `Run`. On any return, exactly one unregister is sent to that hub, after which the client is not a member and its channel is closed. |
| Server.App.constructor | main.go:105-106 | The server starts with the criteria `{Callsign: "TARGET1"}` and `{ICAO: "AABBCC"}`, no alerts and an empty hub. |
| Server.App.PostAircraft | main.go:130-179 | An undecodable body gives 400 with no alert and no broadcast. Otherwise the aircraft is stamped `now(0)`, exactly the alerts `Evaluate` describes are appended after the existing log, the hub ends as if the ingestion's frames had been broadcast in order, and the reply is 200 `{"status":"received"}`. |
| Server.App.Ingest | main.go:141-176 | Under the lock: the `aircraftUpdate` frame (skipped if encoding fails), then for each alert its `alert` frame, while the log grows by exactly those alerts. |
| Server.App.RaiseAlerts | main.go:149-175 | The criteria loop appends exactly `Evaluate`'s alerts and broadcasts their frames in that order. |
| Server.App.Consider | main.go:150-174 | One criterion logs one alert exactly when it fires, and broadcasts that alert's frame unless encoding fails. |
| Server.App.GetAlerts | main.go:181-187 | Replies 200 with the log as it is, element for element. |
| Server.App.PostCriterion | main.go:189-203 | An undecodable body gives 400 and leaves the criteria unchanged. Otherwise the criterion is appended at the end and echoed back with 201. |
| Server.App.OpenEvents | main.go:205-220 | Without a flusher: 500 `{"error":"Streaming unsupported!"}`, no client, hub unchanged. Otherwise a fresh client is registered with the app's hub, and the reply is the event stream (status 200, no JSON body), ready to pump. |
| Server.SeedCriteriaAlerts | main.go:105-106 | With the seed criteria, an AABBCC aircraft raises one alert. If its callsign is TARGET1 too, it raises two, the callsign alert first. |

## Left out

- The ADS-B simulator under `cmd/` (floating-point trigonometry, randomness, timers and HTTP posts) is not part of this model.
- The security headers (main.go:17-36), the static file routes (main.go:110-128), the `/api/events` response headers (main.go:206-209), and server start-up and shutdown (main.go:98-103, main.go:248-262): constant strings and framework calls with no state to model.
- Goroutines, channel blocking and the mutex. The model runs one request at a time, and an ingestion's broadcasts are processed back to back. In Go, a register or unregister from another goroutine can be taken by the hub between two broadcasts of one ingestion, because the mutex does not cover the hub's goroutine. That interleaving is not modelled.
- The unbuffered `broadcast`, `register` and `unregister` channels are modelled as direct calls into the hub.
- `encoding/json`. Decoding is an `Option` body, and `json.Marshal` is a parameter that may fail. The JSON text itself is not modelled. `Sse.FrameRoundTrip` needs a payload without line feeds, which `json.Marshal` output satisfies but which is not proved here.
- `Sse.ParseFrame` reads only lines that end in a line feed. Section 9.2 of the WHATWG HTML Living Standard also ends lines at a carriage return or a carriage return plus line feed, and that reader is not modelled. A payload holding a raw carriage return would be cut by a conforming reader. `json.Marshal` escapes carriage returns inside strings, so its output holds none; that is not proved here.
- `time.Now()` is the parameter `now`, and `time.Time` values are opaque integers.
- Logging and `flusher.Flush()`: neither changes the modelled state.
- `Client.ID` (the remote address) appears only in log lines. Clients are identified by `ClientId`.
- The latitude, longitude, speed and track fields are carried as their 64 bits and never computed with. `Altitude` (a Go `int`) is carried through unchanged, so no wrap-around arises.
- `[]byte` messages are modelled as strings of characters.
- Which select arm Go picks when several are ready is random. It is an input of each pass (`Wake.preferCancel`), as are cancellation and write success.
- The hub keys members by `*Client` in a `map[*Client]bool` (main.go:53, main.go:72), so registering a client again changes nothing. The model follows that (`Fanout.RegisterKeepsValid`).

=== FILE: events.dfy ===
/**
 The `/api/events` streaming endpoint (main.go:205-246). After registering
 its client with the hub it loops on a select: a message from its channel is
 written to the connection, a closed and drained channel ends the loop, a
 failed write ends the loop, and a cancelled request context ends the loop.
 Every way out runs the deferred unregister.

 The network decides what each pass of the loop sees; that is the `Wake`
 handed to each pass. When both arms of the select are ready Go picks one at
 random, so the wake also says which one was taken.
 */
module Events {
  import opened Models
  import opened Sse
  import opened Fanout

  /** What one pass of the select loop finds: whether the request context is
      done, which arm wins when both are ready, and whether writing the
      message taken on this pass succeeds. */
  datatype Wake = Wake(cancelled: bool, preferCancel: bool, writeOk: bool)

  /** The three `return nil` statements of the loop. */
  datatype Exit = ChannelClosed | WriteFailed | ContextDone

  /** The endpoint's progress: every message it took from its channel, every
      message that reached the connection, and why it stopped, if it has. */
  datatype Endpoint = Endpoint(received: seq<Message>, written: seq<Message>, exit: Option<Exit>)

  /** Everything taken was written, except the one message whose write failed. */
  predicate Consistent(e: Endpoint) {
    || e.written == e.received
    || (e.exit == Some(WriteFailed) && |e.received| == |e.written| + 1 && e.written == e.received[..|e.written|])
  }

  /** One pass of the loop, given the endpoint and its channel. */
  function Step(e: Endpoint, ch: Chan, w: Wake): (r: (Endpoint, Chan))
    ensures e.received + ch.buf == r.0.received + r.1.buf
    ensures r.1.closed == ch.closed
    ensures e.received <= r.0.received && e.written <= r.0.written
    ensures |r.0.received| <= |e.received| + 1
    ensures Consistent(e) ==> Consistent(r.0)
    ensures e.exit.Some? ==> r == (e, ch)
    ensures e.exit.None? && r.0.exit == Some(ChannelClosed) ==> ch.closed && ch.buf == [] && r.1 == ch
  {
    if e.exit.Some? then (e, ch)
    else
      var r := Receive(ch);
      if !r.Empty? && !(w.cancelled && w.preferCancel) then
        match r
        case Drained => (e.(exit := Some(ChannelClosed)), ch)
        case Got(m, rest) =>
          if w.writeOk then (e.(received := e.received + [m], written := e.written + [m]), rest)
          else (e.(received := e.received + [m], exit := Some(WriteFailed)), rest)
        case Empty => (e, ch)
      else if w.cancelled then (e.(exit := Some(ContextDone)), ch)
      else (e, ch)
  }

  /** Successive passes of the loop while no other request reaches the hub.
      Messages leave the channel only at the front and in order; once the
      loop has returned nothing changes any more. */
  function Run(e: Endpoint, ch: Chan, ws: seq<Wake>): (r: (Endpoint, Chan))
    ensures e.received + ch.buf == r.0.received + r.1.buf
    ensures r.1.closed == ch.closed
    ensures e.received <= r.0.received && e.written <= r.0.written
    ensures Consistent(e) ==> Consistent(r.0)
    ensures e.exit.Some? ==> r == (e, ch)
    ensures e.exit.None? && r.0.exit == Some(ChannelClosed) ==> ch.closed && r.1.buf == []
  {
    if ws == [] then (e, ch)
    else
      var mid := Run(e, ch, ws[..|ws| - 1]);
      Step(mid.0, mid.1, ws[|ws| - 1])
  }

  /** Each pass takes at most one message from the channel. */
  lemma {:induction false} RunTakesAtMostOnePerPass(e: Endpoint, ch: Chan, ws: seq<Wake>)
    ensures |Run(e, ch, ws).0.received| <= |e.received| + |ws|
  {
    if ws != [] {
      RunTakesAtMostOnePerPass(e, ch, ws[..|ws| - 1]);
    }
  }

  /** Wakes after the loop has returned change nothing. */
  lemma {:induction false} RunStopsAtExit(e: Endpoint, ch: Chan, ws: seq<Wake>, i: nat)
    requires i <= |ws| && Run(e, ch, ws[..i]).0.exit.Some?
    ensures Run(e, ch, ws) == Run(e, ch, ws[..i])
    decreases |ws| - i
  {
    if i < |ws| {
      var n := |ws| - 1;
      if i == n {
        assert ws[..n] == ws[..i];
      } else {
        assert ws[..n][..i] == ws[..i];
        RunStopsAtExit(e, ch, ws[..n], i);
      }
      var mid := Run(e, ch, ws[..n]);
      assert mid == Run(e, ch, ws[..i]) && mid.0.exit.Some?;
      assert Run(e, ch, ws) == Step(mid.0, mid.1, ws[n]) == mid;
    } else {
      assert ws[..i] == ws;
    }
  }

  /** A healthy connection (never cancelled, every write succeeds) writes the
      buffered messages one per pass, in the order the hub queued them. */
  lemma {:induction false} RunDeliversInOrder(e: Endpoint, ch: Chan, ws: seq<Wake>)
    requires e.exit.None? && |ws| <= |ch.buf|
    requires forall k :: 0 <= k < |ws| ==> !ws[k].cancelled && ws[k].writeOk
    ensures Run(e, ch, ws).0 == Endpoint(e.received + ch.buf[..|ws|], e.written + ch.buf[..|ws|], None)
    ensures Run(e, ch, ws).1 == ch.(buf := ch.buf[|ws|..])
  {
    if ws != [] {
      var n := |ws| - 1;
      RunDeliversInOrder(e, ch, ws[..n]);
      assert ch.buf[..n] + [ch.buf[n]] == ch.buf[..n + 1];
      assert ch.buf[n..][1..] == ch.buf[n + 1..];
    }
  }

  /** Why one pass returns: the channel is closed and drained and the
      context did not win the select; the message taken could not be
      written; or the context is done and won the select, or nothing was
      ready on the channel. */
  lemma StepExits(e: Endpoint, ch: Chan, w: Wake)
    requires e.exit.None?
    ensures Step(e, ch, w).0.exit == Some(ChannelClosed)
      <==> ch.buf == [] && ch.closed && !(w.cancelled && w.preferCancel)
    ensures Step(e, ch, w).0.exit == Some(WriteFailed)
      <==> ch.buf != [] && !(w.cancelled && w.preferCancel) && !w.writeOk
    ensures Step(e, ch, w).0.exit == Some(ContextDone)
      <==> w.cancelled && (w.preferCancel || (ch.buf == [] && !ch.closed))
  {
  }

  /** A healthy connection on a closed channel writes every buffered message
      and then returns because the channel is closed. */
  lemma {:induction false} RunDrainsThenExits(e: Endpoint, ch: Chan, ws: seq<Wake>)
    requires e.exit.None? && ch.closed && |ws| == |ch.buf| + 1
    requires forall k :: 0 <= k < |ws| ==> !ws[k].cancelled && ws[k].writeOk
    ensures Run(e, ch, ws).0 == Endpoint(e.received + ch.buf, e.written + ch.buf, Some(ChannelClosed))
  {
    var n := |ws| - 1;
    RunDeliversInOrder(e, ch, ws[..n]);
    assert ch.buf[..n] == ch.buf;
  }

  /** A pass whose context is done returns, without taking a message, when
      the context wins the select or the channel has nothing to offer. */
  lemma RunEndsOnCancel(e: Endpoint, ch: Chan, ws: seq<Wake>)
    requires ws != [] && Run(e, ch, ws[..|ws| - 1]).0.exit.None?
    requires var w, mid := ws[|ws| - 1], Run(e, ch, ws[..|ws| - 1]).1;
      w.cancelled && (w.preferCancel || (mid.buf == [] && !mid.closed))
    ensures Run(e, ch, ws).0.exit == Some(ContextDone)
    ensures Run(e, ch, ws).0.received == Run(e, ch, ws[..|ws| - 1]).0.received
  {
  }

  /** A pass that takes a message and fails to write it returns; the
      message counts as taken but not written. */
  lemma RunEndsOnWriteFailure(e: Endpoint, ch: Chan, ws: seq<Wake>)
    requires ws != [] && Run(e, ch, ws[..|ws| - 1]).0.exit.None?
    requires var w, mid := ws[|ws| - 1], Run(e, ch, ws[..|ws| - 1]);
      mid.1.buf != [] && !(w.cancelled && w.preferCancel) && !w.writeOk
    ensures var mid := Run(e, ch, ws[..|ws| - 1]);
      Run(e, ch, ws).0 == Endpoint(mid.0.received + [mid.1.buf[0]], mid.0.written, Some(WriteFailed))
  {
  }

  /** One streaming connection. */
  class Stream {
    /** The hub this endpoint registered with. */
    const hub: Hub
    const client: ClientId
    var received: seq<Message>
    var written: seq<Message>
    var exit: Option<Exit>
    /** How many unregister requests this endpoint has sent. */
    var unregisters: nat

    function Local(): Endpoint
      reads this
    {
      Endpoint(received, written, exit)
    }

    /** A running endpoint has sent no unregister; one that returned has
        sent exactly one. */
    ghost predicate Valid()
      reads this
    {
      Consistent(Local()) && unregisters == if exit.Some? then 1 else 0
    }

    /** main.go:216-220, once a flusher is available: a new client with an
        empty channel of capacity 256, registered with the hub. */
    constructor Open(h: Hub)
      requires h.Valid()
      modifies h
      ensures hub == h
      ensures Valid() && Local() == Endpoint([], [], None)
      ensures h.Valid() && client !in old(h.sends)
      ensures h.State()
        == AfterRegister(old(h.State()).(sends := old(h.sends)[client := Chan([], false)]), client)
      ensures Accounted(h.State(), client)
    {
      var c := h.NewClient();
      h.Register(c);
      hub := h;
      client := c;
      received, written, exit, unregisters := [], [], None, 0;
    }

    /** The select loop of main.go:228-245 for as many passes as `wakes`
        holds, stopping at the first return; on return the deferred
        unregister of main.go:222-225 is sent. */
    method Pump(wakes: seq<Wake>)
      requires Valid() && exit.None?
      requires hub.Valid() && Accounted(hub.State(), client)
      modifies this, hub
      ensures Valid() && hub.Valid()
      ensures var r := Run(old(Local()), old(hub.sends[client]), wakes);
        var h := old(hub.State()).(sends := old(hub.sends)[client := r.1]);
        && Local() == r.0
        && hub.State() == if r.0.exit.Some? then AfterUnregister(h, client) else h
      ensures exit.Some? ==> client !in hub.clients && hub.sends[client].closed
      ensures exit.None? ==> Accounted(hub.State(), client)
    {
      ghost var e0, ch0 := Local(), hub.sends[client];
      var i := 0;
      while i < |wakes| && exit.None?
        invariant i <= |wakes|
        invariant hub.Valid() && client in hub.sends
        invariant hub.clients == old(hub.clients)
        invariant hub.sends == old(hub.sends)[client := hub.sends[client]]
        invariant (Local(), hub.sends[client]) == Run(e0, ch0, wakes[..i])
        invariant unregisters == 0
      {
        assert wakes[..i + 1][..i] == wakes[..i];
        Pass(wakes[i]);
        i := i + 1;
      }
      if exit.Some? {
        RunStopsAtExit(e0, ch0, wakes, i);
        hub.Unregister(client);
        unregisters := unregisters + 1;
      } else {
        assert wakes[..i] == wakes;
      }
    }

    /** One pass of the select (main.go:229-244): the pass `Step` describes,
        performed on the client's own channel in the hub. */
    method Pass(w: Wake)
      requires exit.None? && hub.Valid() && client in hub.sends
      modifies this, hub
      ensures hub.Valid() && client in hub.sends
      ensures hub.clients == old(hub.clients)
      ensures hub.sends == old(hub.sends)[client := hub.sends[client]]
      ensures (Local(), hub.sends[client]) == Step(old(Local()), old(hub.sends[client]), w)
      ensures unregisters == old(unregisters)
    {
      var ch := hub.sends[client];
      if (ch.buf != [] || ch.closed) && !(w.cancelled && w.preferCancel) {
        var m, open := hub.ReceiveOn(client);
        if !open {
          exit := Some(ChannelClosed);
        } else {
          received := received + [m];
          if w.writeOk {
            written := written + [m];
          } else {
            exit := Some(WriteFailed);
          }
        }
      } else if w.cancelled {
        exit := Some(ContextDone);
      }
    }
  }
}

=== FILE: hub.dfy ===
/**
 The broadcast hub (main.go:45-92): the set of registered clients and the
 send queue of every client. `HubState` is the hub as a value and the
 `After...` functions are the three arms of `Hub.run`'s select; class `Hub`
 performs the same arms in place, one request at a time.

 A client is known by its identity (the Go map is keyed by `*Client`). Its
 `Send` channel is a buffered channel of capacity 256 shared by the hub (the
 only sender) and the client's streaming endpoint (the only receiver); the
 model keeps every client's channel in `sends`, keyed by that identity.
 */
module Fanout {
  import opened Sse

  /** Capacity of every client's send channel (main.go:218). */
  const SendBufferSize: nat := 256

  type ClientId = nat

  /** A buffered channel: the messages sent and not yet received, oldest
      first, and whether it has been closed. */
  datatype Chan = Chan(buf: seq<Message>, closed: bool)

  /** Closing a channel twice is a run-time panic in Go; the precondition
      is the obligation that it never happens. */
  function Close(ch: Chan): (r: Chan)
    requires !ch.closed
    ensures r.closed && r.buf == ch.buf
  {
    ch.(closed := true)
  }

  /** Non-blocking send of main.go:82-88: append when there is room,
      otherwise the slow client's channel is closed. */
  function Deliver(ch: Chan, m: Message): (r: Chan)
    requires !ch.closed
    ensures !r.closed <==> |ch.buf| < SendBufferSize
    ensures r.buf == if r.closed then ch.buf else ch.buf + [m]
  {
    if |ch.buf| < SendBufferSize then ch.(buf := ch.buf + [m]) else Close(ch)
  }

  /** What one receive `m, open := <-ch` observes: a message (buffered
      messages are still received after close), the end of a closed and
      drained channel, or nothing yet (the receive would block). */
  datatype Received = Got(m: Message, rest: Chan) | Drained | Empty

  function Receive(ch: Chan): (r: Received)
    ensures r.Got? <==> ch.buf != []
    ensures r.Got? ==> [r.m] + r.rest.buf == ch.buf && r.rest.closed == ch.closed
    ensures r.Drained? <==> ch.buf == [] && ch.closed
  {
    if ch.buf != [] then Got(ch.buf[0], ch.(buf := ch.buf[1..]))
    else if ch.closed then Drained
    else Empty
  }

  datatype HubState = HubState(clients: set<ClientId>, sends: map<ClientId, Chan>) {
    /** Every member has a channel and that channel is open; no channel
        holds more than its capacity. */
    predicate Valid() {
      && clients <= sends.Keys
      && (forall c :: c in clients ==> !sends[c].closed)
      && (forall c :: c in sends ==> |sends[c].buf| <= SendBufferSize)
    }
  }

  /** `register` arm (main.go:71-72): a map insert, so registering a member
      again changes nothing. */
  function AfterRegister(h: HubState, c: ClientId): HubState
    requires c in h.sends
  {
    h.(clients := h.clients + {c})
  }

  /** `unregister` arm (main.go:74-79): remove and close, only if present. */
  function AfterUnregister(h: HubState, c: ClientId): (r: HubState)
    requires h.Valid()
    ensures r.Valid()
    ensures c !in r.clients && r.sends.Keys == h.sends.Keys
  {
    if c in h.clients then HubState(h.clients - {c}, h.sends[c := Close(h.sends[c])]) else h
  }

  /** `broadcast` arm (main.go:80-89): every member with room gets `m` at the
      back of its queue; every member whose queue is full is dropped and its
      channel closed. Stated per client, so it does not depend on the order
      in which the map is visited. */
  function AfterBroadcast(h: HubState, m: Message): (r: HubState)
    requires h.Valid()
    ensures r.Valid()
    ensures r.clients <= h.clients && r.sends.Keys == h.sends.Keys
  {
    HubState(
      set c | c in h.clients && |h.sends[c].buf| < SendBufferSize,
      map c | c in h.sends :: if c in h.clients then Deliver(h.sends[c], m) else h.sends[c])
  }

  /** Several broadcasts, processed in order. */
  function AfterBroadcastAll(h: HubState, ms: seq<Message>): (r: HubState)
    requires h.Valid()
    ensures r.Valid()
    ensures r.clients <= h.clients && r.sends.Keys == h.sends.Keys
  {
    if ms == [] then h
    else AfterBroadcast(AfterBroadcastAll(h, ms[..|ms| - 1]), ms[|ms| - 1])
  }

  lemma {:induction false} BroadcastAllAppendOne(h: HubState, ms: seq<Message>, m: Message)
    requires h.Valid()
    ensures AfterBroadcastAll(h, ms + [m]) == AfterBroadcast(AfterBroadcastAll(h, ms), m)
  {
    assert (ms + [m])[..|ms|] == ms;
  }

  /** Broadcasting `ms` then `ns` is broadcasting `ms + ns`. */
  lemma {:induction false} BroadcastAllConcat(h: HubState, ms: seq<Message>, ns: seq<Message>)
    requires h.Valid()
    ensures AfterBroadcastAll(h, ms + ns) == AfterBroadcastAll(AfterBroadcastAll(h, ms), ns)
    decreases |ns|
  {
    if ns == [] {
      assert ms + ns == ms;
    } else {
      var n := |ns| - 1;
      BroadcastAllConcat(h, ms, ns[..n]);
      assert ms + ns == (ms + ns[..n]) + [ns[n]];
      BroadcastAllAppendOne(h, ms + ns[..n], ns[n]);
      BroadcastAllAppendOne(AfterBroadcastAll(h, ms), ns[..n], ns[n]);
      assert ns[..n] + [ns[n]] == ns;
    }
  }

  lemma RegisterKeepsValid(h: HubState, c: ClientId)
    requires h.Valid() && c in h.sends && !h.sends[c].closed
    ensures AfterRegister(h, c).Valid()
    ensures AfterRegister(h, c).sends == h.sends
    ensures AfterRegister(AfterRegister(h, c), c) == AfterRegister(h, c)
  {
  }

  /** A member is removed and its channel closed; the second of two
      unregisters is a no-op, so no channel is closed twice. */
  lemma UnregisterEffect(h: HubState, c: ClientId, d: ClientId)
    requires h.Valid() && d != c
    ensures c in h.clients ==>
      AfterUnregister(h, c).sends[c] == Chan(h.sends[c].buf, true)
    ensures c !in h.clients ==> AfterUnregister(h, c) == h
    ensures d in AfterUnregister(h, c).clients <==> d in h.clients
    ensures d in h.sends ==> AfterUnregister(h, c).sends[d] == h.sends[d]
    ensures AfterUnregister(AfterUnregister(h, c), c) == AfterUnregister(h, c)
  {
  }

  /** One broadcast, seen from one client. */
  lemma BroadcastEffect(h: HubState, m: Message, c: ClientId)
    requires h.Valid() && c in h.sends
    ensures var r := AfterBroadcast(h, m);
      && (c in h.clients && |h.sends[c].buf| < SendBufferSize ==>
            c in r.clients && r.sends[c] == Chan(h.sends[c].buf + [m], false))
      && (c in h.clients && |h.sends[c].buf| == SendBufferSize ==>
            c !in r.clients && r.sends[c] == Chan(h.sends[c].buf, true))
      && (c !in h.clients ==> c !in r.clients && r.sends[c] == h.sends[c])
  {
  }

  /** A member with room for all of `ms` receives them all, in order, after
      what it already held, and stays registered. */
  lemma {:induction false} BroadcastAllAppends(h: HubState, ms: seq<Message>, c: ClientId)
    requires h.Valid() && c in h.clients
    requires |h.sends[c].buf| + |ms| <= SendBufferSize
    ensures c in AfterBroadcastAll(h, ms).clients
    ensures AfterBroadcastAll(h, ms).sends[c] == Chan(h.sends[c].buf + ms, false)
  {
    if ms != [] {
      var n := |ms| - 1;
      var b := h.sends[c].buf;
      var before := AfterBroadcastAll(h, ms[..n]);
      assert AfterBroadcastAll(h, ms) == AfterBroadcast(before, ms[n]);
      BroadcastAllAppends(h, ms[..n], c);
      BroadcastEffect(before, ms[n], c);
      assert ms[..n] + [ms[n]] == ms;
      assert (b + ms[..n]) + [ms[n]] == b + (ms[..n] + [ms[n]]);
    }
  }

  /** A member without room for all of `ms` keeps the messages that fitted,
      is dropped and has its channel closed; the rest never reach it. */
  lemma {:induction false} BroadcastAllEvicts(h: HubState, ms: seq<Message>, c: ClientId)
    requires h.Valid() && c in h.clients
    requires |h.sends[c].buf| + |ms| > SendBufferSize
    ensures c !in AfterBroadcastAll(h, ms).clients
    ensures AfterBroadcastAll(h, ms).sends[c]
      == Chan(h.sends[c].buf + ms[..SendBufferSize - |h.sends[c].buf|], true)
  {
    var n := |ms| - 1;
    var room := SendBufferSize - |h.sends[c].buf|;
    var before := AfterBroadcastAll(h, ms[..n]);
    BroadcastEffect(before, ms[n], c);
    if |h.sends[c].buf| + n > SendBufferSize {
      BroadcastAllEvicts(h, ms[..n], c);
      assert ms[..n][..room] == ms[..room];
    } else {
      BroadcastAllAppends(h, ms[..n], c);
      assert n == room;
    }
  }

  /** A client that is not a member when the broadcasts are processed
      receives none of them: one that registers later misses them. */
  lemma {:induction false} BroadcastAllSkipsNonMembers(h: HubState, ms: seq<Message>, c: ClientId)
    requires h.Valid() && c in h.sends && c !in h.clients
    ensures c !in AfterBroadcastAll(h, ms).clients
    ensures AfterBroadcastAll(h, ms).sends[c] == h.sends[c]
  {
    if ms != [] {
      var n := |ms| - 1;
      BroadcastAllSkipsNonMembers(h, ms[..n], c);
      BroadcastEffect(AfterBroadcastAll(h, ms[..n]), ms[n], c);
    }
  }

  /** A client whose streaming endpoint is still running is either a member
      or has already had its channel closed by the hub. */
  predicate Accounted(h: HubState, c: ClientId) {
    c in h.sends && (c in h.clients || h.sends[c].closed)
  }

  lemma {:induction false} HubKeepsAccounted(h: HubState, c: ClientId, d: ClientId, ms: seq<Message>)
    requires h.Valid() && Accounted(h, c) && d in h.sends
    ensures Accounted(AfterRegister(h, d), c)
    ensures Accounted(AfterUnregister(h, d), c)
    ensures Accounted(AfterBroadcastAll(h, ms), c)
  {
    if ms != [] {
      var n := |ms| - 1;
      HubKeepsAccounted(h, c, d, ms[..n]);
      BroadcastEffect(AfterBroadcastAll(h, ms[..n]), ms[n], c);
    }
  }

  class Hub {
    var clients: set<ClientId>
    var sends: map<ClientId, Chan>
    /** Identities handed out so far: every client made is a new object. */
    var nextId: nat

    function State(): HubState
      reads this
    {
      HubState(clients, sends)
    }

    ghost predicate Valid()
      reads this
    {
      State().Valid() && forall c :: c in sends ==> c < nextId
    }

    /** newHub (main.go:59-66): no clients. */
    constructor ()
      ensures Valid() && State() == HubState({}, map[])
    {
      clients, sends, nextId := {}, map[], 0;
    }

    /** `&Client{..., Send: make(chan []byte, 256)}` (main.go:216-219): a new
        client with an empty open channel, not yet registered. */
    method NewClient() returns (c: ClientId)
      requires Valid()
      modifies this
      ensures Valid()
      ensures c !in old(sends)
      ensures State() == old(State()).(sends := old(sends)[c := Chan([], false)])
    {
      c := nextId;
      sends := sends[c := Chan([], false)];
      nextId := nextId + 1;
    }

    method Register(c: ClientId)
      requires Valid() && c in sends && !sends[c].closed
      modifies this
      ensures Valid() && State() == AfterRegister(old(State()), c)
    {
      clients := clients + {c};
    }

    method Unregister(c: ClientId)
      requires Valid()
      modifies this
      ensures Valid() && State() == AfterUnregister(old(State()), c)
    {
      if c in clients {
        clients := clients - {c};
        sends := sends[c := Close(sends[c])];
      }
    }

    /** The broadcast arm: visits the members in whatever order the map
        yields them, and ends in the one state `AfterBroadcast` describes. */
    method Broadcast(m: Message)
      requires Valid()
      modifies this
      ensures Valid() && State() == AfterBroadcast(old(State()), m)
    {
      ghost var h := State();
      var pending := clients;
      while pending != {}
        invariant pending <= h.clients
        invariant sends.Keys == h.sends.Keys
        invariant clients == pending + set c | c in h.clients - pending && |h.sends[c].buf| < SendBufferSize
        invariant forall c :: c in sends ==>
          sends[c] == if c in h.clients - pending then Deliver(h.sends[c], m) else h.sends[c]
        invariant nextId == old(nextId)
        decreases pending
      {
        var c :| c in pending;
        var ch := sends[c];
        if |ch.buf| < SendBufferSize {
          sends := sends[c := ch.(buf := ch.buf + [m])];
        } else {
          clients := clients - {c};
          sends := sends[c := Close(ch)];
        }
        pending := pending - {c};
      }
    }

    /** The endpoint's receive from its own channel (main.go:230), taken only
        when the select can choose it: a message is buffered or the channel
        is closed. */
    method ReceiveOn(c: ClientId) returns (m: Message, open: bool)
      requires Valid() && c in sends && (sends[c].buf != [] || sends[c].closed)
      modifies this
      ensures Valid() && clients == old(clients)
      ensures open <==> Receive(old(sends[c])).Got?
      ensures open ==> m == Receive(old(sends[c])).m && sends == old(sends)[c := Receive(old(sends[c])).rest]
      ensures !open ==> m == [] && sends == old(sends)
    {
      var ch := sends[c];
      if ch.buf != [] {
        m, open := ch.buf[0], true;
        sends := sends[c := ch.(buf := ch.buf[1..])];
      } else {
        m, open := [], false;
      }
    }
  }
}

=== FILE: matching.dfy ===
/**
 The alert-matching engine of the ingestion handler (main.go:149-165): which
 stored criteria fire for one aircraft, and the alerts that result, in the
 order the criteria were added.
 */
module Matching {
  import opened Models

  /** A criterion fires when its ICAO is set and equal to the aircraft's, or
      its callsign is set and equal to the aircraft's; the two fields are
      tried independently. */
  predicate Matches(c: AlertCriteria, a: Aircraft) {
    (c.icao != "" && c.icao == a.icao) || (c.callsign != "" && c.callsign == a.callsign)
  }

  function AlertMessage(a: Aircraft): string {
    "Monitored aircraft detected: " + a.callsign + " (" + a.icao + ")"
  }

  function MakeAlert(a: Aircraft, c: AlertCriteria, at: Time): Alert {
    Alert(a, AlertMessage(a), c, at)
  }

  /** The positions of the criteria that fire for `a`, in increasing order. */
  function MatchIndices(cs: seq<AlertCriteria>, a: Aircraft): (r: seq<nat>)
    ensures forall k :: 0 <= k < |r| ==> r[k] < |cs| && Matches(cs[r[k]], a)
    ensures forall k, l :: 0 <= k < l < |r| ==> r[k] < r[l]
  {
    if cs == [] then []
    else
      var n := |cs| - 1;
      var prev := MatchIndices(cs[..n], a);
      assert forall p :: 0 <= p < n ==> cs[..n][p] == cs[p];
      if Matches(cs[n], a) then prev + [n] else prev
  }

  /** ... and every position that fires is among them. */
  lemma {:induction false} MatchIndicesComplete(cs: seq<AlertCriteria>, a: Aircraft, p: nat)
    requires p < |cs| && Matches(cs[p], a)
    ensures p in MatchIndices(cs, a)
  {
    var n := |cs| - 1;
    if p < n {
      assert cs[..n][p] == cs[p];
      MatchIndicesComplete(cs[..n], a, p);
    }
  }

  /** The alerts one ingestion of `a` raises against `cs`, stamping the k-th
      with the clock reading `now(first + k)`; at most one per criterion. */
  function Evaluate(a: Aircraft, cs: seq<AlertCriteria>, now: nat -> Time, first: nat): (r: seq<Alert>)
    ensures |r| <= |cs|
  {
    if cs == [] then []
    else
      var n := |cs| - 1;
      var prev := Evaluate(a, cs[..n], now, first);
      if Matches(cs[n], a) then prev + [MakeAlert(a, cs[n], now(first + |prev|))] else prev
  }

  /** Alert k is raised by the k-th criterion that fires, so the alerts come
      in the order the criteria were stored, one per firing criterion. */
  lemma {:induction false} EvaluateFollowsMatches(a: Aircraft, cs: seq<AlertCriteria>, now: nat -> Time, first: nat)
    ensures |Evaluate(a, cs, now, first)| == |MatchIndices(cs, a)|
    ensures forall k :: 0 <= k < |MatchIndices(cs, a)| ==>
      Evaluate(a, cs, now, first)[k] == MakeAlert(a, cs[MatchIndices(cs, a)[k]], now(first + k))
  {
    if cs != [] {
      var n := |cs| - 1;
      EvaluateFollowsMatches(a, cs[..n], now, first);
      assert forall p :: 0 <= p < n ==> cs[..n][p] == cs[p];
    }
  }

  /** Every alert raised is for `a`, carries the operator message and a
      criterion that fires, and the k-th is stamped `now(first + k)`. */
  lemma EvaluateRaisesOnlyMatches(a: Aircraft, cs: seq<AlertCriteria>, now: nat -> Time, first: nat)
    ensures forall k :: 0 <= k < |Evaluate(a, cs, now, first)| ==>
      && Evaluate(a, cs, now, first)[k].aircraft == a
      && Evaluate(a, cs, now, first)[k].message == AlertMessage(a)
      && Matches(Evaluate(a, cs, now, first)[k].criteria, a)
      && Evaluate(a, cs, now, first)[k].timestamp == now(first + k)
  {
    EvaluateFollowsMatches(a, cs, now, first);
  }

  /** One more criterion adds at most one alert, at the end of the list. */
  lemma {:induction false} EvaluateAppendOne(a: Aircraft, cs: seq<AlertCriteria>, c: AlertCriteria, now: nat -> Time, first: nat)
    ensures Evaluate(a, cs + [c], now, first)
      == Evaluate(a, cs, now, first)
         + if Matches(c, a) then [MakeAlert(a, c, now(first + |Evaluate(a, cs, now, first)|))] else []
  {
    assert (cs + [c])[..|cs|] == cs;
  }

  /** A criterion added after `cs` raises one alert, at the end, exactly when
      its ICAO is set and equal to the aircraft's or its callsign is set and
      equal to the aircraft's; otherwise the alerts are those of `cs`. So a
      criterion with both fields set fires on either one alone. */
  lemma CriterionFiresOnEitherField(a: Aircraft, cs: seq<AlertCriteria>, c: AlertCriteria, now: nat -> Time, first: nat)
    ensures (c.icao != "" && c.icao == a.icao) || (c.callsign != "" && c.callsign == a.callsign) ==>
      Evaluate(a, cs + [c], now, first)
        == Evaluate(a, cs, now, first) + [MakeAlert(a, c, now(first + |Evaluate(a, cs, now, first)|))]
    ensures !((c.icao != "" && c.icao == a.icao) || (c.callsign != "" && c.callsign == a.callsign)) ==>
      Evaluate(a, cs + [c], now, first) == Evaluate(a, cs, now, first)
  {
    EvaluateAppendOne(a, cs, c, now, first);
  }

  /** A criterion with neither field set never raises an alert, whatever the
      aircraft (an empty ICAO or callsign does not match an empty one). */
  lemma EmptyCriterionRaisesNothing(a: Aircraft, cs: seq<AlertCriteria>, now: nat -> Time, first: nat)
    ensures Evaluate(a, cs + [AlertCriteria("", "")], now, first) == Evaluate(a, cs, now, first)
  {
    EvaluateAppendOne(a, cs, AlertCriteria("", ""), now, first);
  }

  /** No alert at all exactly when no criterion fires. */
  lemma {:induction false} NoAlertIffNoMatch(a: Aircraft, cs: seq<AlertCriteria>, now: nat -> Time, first: nat)
    ensures Evaluate(a, cs, now, first) == [] <==> forall p :: 0 <= p < |cs| ==> !Matches(cs[p], a)
  {
    EvaluateFollowsMatches(a, cs, now, first);
    var idx := MatchIndices(cs, a);
    if exists p :: 0 <= p < |cs| && Matches(cs[p], a) {
      var p :| 0 <= p < |cs| && Matches(cs[p], a);
      MatchIndicesComplete(cs, a, p);
    }
    if |idx| > 0 {
      assert Matches(cs[idx[0]], a);
    }
  }

  /** Two criteria that both fire give two alerts, in the order the criteria
      were stored: no deduplication and no merging. */
  lemma TwoMatchesTwoAlerts(a: Aircraft, cs: seq<AlertCriteria>, now: nat -> Time, first: nat, p: nat, q: nat)
    requires p < q < |cs| && Matches(cs[p], a) && Matches(cs[q], a)
    ensures exists k, l ::
      && 0 <= k < l < |Evaluate(a, cs, now, first)|
      && Evaluate(a, cs, now, first)[k].criteria == cs[p]
      && Evaluate(a, cs, now, first)[l].criteria == cs[q]
  {
    EvaluateFollowsMatches(a, cs, now, first);
    var idx := MatchIndices(cs, a);
    var r := Evaluate(a, cs, now, first);
    MatchIndicesComplete(cs, a, p);
    MatchIndicesComplete(cs, a, q);
    var k :| 0 <= k < |idx| && idx[k] == p;
    var l :| 0 <= l < |idx| && idx[l] == q;
    assert r[k].criteria == cs[p] && r[l].criteria == cs[q];
  }

  /** A single criterion gives exactly one alert when it fires and none otherwise. */
  lemma OneCriterionAlertCount(a: Aircraft, c: AlertCriteria, now: nat -> Time, first: nat)
    ensures |Evaluate(a, [c], now, first)| == if Matches(c, a) then 1 else 0
  {
    assert [c][..0] == [];
  }
}

=== FILE: models.dfy ===
/**
 The record types the alert server passes around (models.go). They are plain
 values: an Alert holds a copy of the Aircraft it was raised for, so nothing
 done to the telemetry afterwards can reach it.
 */
module Models {

  datatype Option<+T> = None | Some(value: T)

  /** An instant as returned by the server's clock; only ever compared for equality. */
  type Time = int

  /** A float64 carried through unchanged: the server never computes with
      positions, speeds or tracks, so only the 64 bits are kept. */
  datatype Float64 = Float64(bits: bv64)

  /** ADS-B data for one aircraft; `icao` is its identity. */
  datatype Aircraft = Aircraft(
    icao: string,
    callsign: string,
    latitude: Float64,
    longitude: Float64,
    altitude: int,
    speed: Float64,
    track: Float64,
    timestamp: Time)

  /** A watch entry; an empty string means "field not set". */
  datatype AlertCriteria = AlertCriteria(icao: string, callsign: string)

  /** One triggered alert: the aircraft as it was matched, the text shown to
      the operator, the criterion that fired and when. */
  datatype Alert = Alert(
    aircraft: Aircraft,
    message: string,
    criteria: AlertCriteria,
    timestamp: Time)
}

=== FILE: server.dfy ===
/**
 The alert server's state and its API handlers (main.go:38-43, 94-106,
 130-246): the criteria list and the alert log, both only ever appended to,
 and the hub every ingestion broadcasts through. As a modelling choice,
 each handler runs to completion before the next request is taken. The
 server's mutex covers one ingestion's whole match, append and broadcast
 sequence (main.go:141-176), the alert-log snapshot (main.go:182-186) and the
 criteria append (main.go:197-199). It does not cover request decoding or the
 streaming loop, and it does not stop the hub from taking another client's
 register or unregister between two broadcasts of one ingestion; those
 interleavings are not modelled.
 */
module Server {
  import opened Models
  import opened Matching
  import opened Sse
  import opened Fanout
  import opened Events

  const StatusOK: int := 200
  const StatusCreated: int := 201
  const StatusBadRequest: int := 400
  const StatusInternalServerError: int := 500

  /** The criteria the server starts with (main.go:105-106). */
  const SeedCriteria: seq<AlertCriteria> :=
    [AlertCriteria("", "TARGET1"), AlertCriteria("AABBCC", "")]

  /** The body of a reply: a JSON string map, the stored criterion or the
      list of alerts as JSON, or the event stream itself (no JSON; the
      status is the implicit 200 of its first write). */
  datatype Body =
    | Fields(fields: map<string, string>)
    | CriterionBody(criterion: AlertCriteria)
    | AlertsBody(alerts: seq<Alert>)
    | EventStream

  datatype Reply = Reply(status: int, body: Body)

  class App {
    var criteria: seq<AlertCriteria>
    var alerts: seq<Alert>
    const hub: Hub

    ghost predicate Valid()
      reads this, hub
    {
      hub.Valid()
    }

    /** Start-up (main.go:95, main.go:105-106): an empty hub, the two seed
        criteria and no alerts. */
    constructor ()
      ensures Valid() && fresh(hub)
      ensures criteria == SeedCriteria && alerts == []
      ensures hub.State() == HubState({}, map[])
    {
      criteria := SeedCriteria;
      alerts := [];
      hub := new Hub();
    }

    /** POST /api/aircraft (main.go:130-179). `body` is the decoded request
        (`None` when it is not valid JSON for an Aircraft), `now(k)` the k-th
        reading of the clock during this request, and the two encoders stand
        for `json.Marshal`, which may fail. */
    method PostAircraft(body: Option<Aircraft>, now: nat -> Time,
                        encodeAircraft: Aircraft -> Option<string>,
                        encodeAlert: Alert -> Option<string>) returns (reply: Reply)
      requires Valid()
      modifies this`alerts, hub
      ensures Valid()
      ensures body.None? ==>
        && reply == Reply(StatusBadRequest, Fields(map["error" := "Invalid aircraft data"]))
        && alerts == old(alerts)
        && hub.State() == old(hub.State())
      ensures body.Some? ==>
        var a := body.value.(timestamp := now(0));
        var raised := Evaluate(a, criteria, now, 1);
        && reply == Reply(StatusOK, Fields(map["status" := "received"]))
        && alerts == old(alerts) + raised
        && hub.State() == AfterBroadcastAll(old(hub.State()), IngestFrames(a, raised, encodeAircraft, encodeAlert))
    {
      if body.None? {
        return Reply(StatusBadRequest, Fields(map["error" := "Invalid aircraft data"]));
      }
      Ingest(body.value.(timestamp := now(0)), now, encodeAircraft, encodeAlert);
      reply := Reply(StatusOK, Fields(map["status" := "received"]));
    }

    /** The part of POST /api/aircraft done under the lock (main.go:141-176):
        broadcast the aircraft, then for each criterion in order log an alert
        when it fires and broadcast it. */
    method Ingest(a: Aircraft, now: nat -> Time,
                  encodeAircraft: Aircraft -> Option<string>,
                  encodeAlert: Alert -> Option<string>)
      requires Valid()
      modifies this`alerts, hub
      ensures Valid()
      ensures alerts == old(alerts) + Evaluate(a, criteria, now, 1)
      ensures hub.State()
        == AfterBroadcastAll(old(hub.State()), IngestFrames(a, Evaluate(a, criteria, now, 1), encodeAircraft, encodeAlert))
    {
      ghost var h0 := hub.State();
      var update := encodeAircraft(a);
      ghost var head: seq<Message> := [];
      if update.Some? {
        var frame := Frame(AircraftUpdateEvent, update.value);
        hub.Broadcast(frame);
        head := [frame];
        BroadcastAllAppendOne(h0, [], frame);
      }
      RaiseAlerts(a, now, encodeAlert);
      BroadcastAllConcat(h0, head, AlertFrames(Evaluate(a, criteria, now, 1), encodeAlert));
    }

    /** The criteria loop of main.go:149-174: every stored criterion, in the
        order it was added, is tried against `a`; the k-th alert raised is
        stamped with clock reading `now(1 + k)`. */
    method RaiseAlerts(a: Aircraft, now: nat -> Time, encodeAlert: Alert -> Option<string>)
      requires hub.Valid()
      modifies this`alerts, hub
      ensures hub.Valid()
      ensures alerts == old(alerts) + Evaluate(a, criteria, now, 1)
      ensures hub.State() == AfterBroadcastAll(old(hub.State()), AlertFrames(Evaluate(a, criteria, now, 1), encodeAlert))
    {
      ghost var h1 := hub.State();
      ghost var start := alerts;
      var i := 0;
      var reading := 1;  // clock readings taken so far
      ghost var raised: seq<Alert> := [];
      ghost var sent: seq<Message> := [];
      while i < |criteria|
        invariant i <= |criteria|
        invariant hub.Valid()
        invariant raised == Evaluate(a, criteria[..i], now, 1)
        invariant alerts == start + raised
        invariant reading == 1 + |raised|
        invariant sent == AlertFrames(raised, encodeAlert)
        invariant hub.State() == AfterBroadcastAll(h1, sent)
      {
        var criterion := criteria[i];
        ghost var step := if Matches(criterion, a) then [MakeAlert(a, criterion, now(reading))] else [];
        assert criteria[..i + 1] == criteria[..i] + [criterion];
        EvaluateAppendOne(a, criteria[..i], criterion, now, 1);
        assert (start + raised) + step == start + (raised + step);
        AlertFramesAppend(raised, step, encodeAlert);
        BroadcastAllConcat(h1, sent, AlertFrames(step, encodeAlert));
        var fired := Consider(a, criterion, now(reading), encodeAlert);
        raised := raised + step;
        sent := sent + AlertFrames(step, encodeAlert);
        reading := if fired then reading + 1 else reading;
        i := i + 1;
      }
      assert criteria[..i] == criteria;
    }

    /** One pass of the criteria loop (main.go:150-174): when `c` fires for
        `a`, log an alert stamped `at` and broadcast its `alert` frame, unless
        encoding it fails. */
    method Consider(a: Aircraft, c: AlertCriteria, at: Time, encodeAlert: Alert -> Option<string>)
      returns (fired: bool)
      requires hub.Valid()
      modifies this`alerts, hub
      ensures hub.Valid()
      ensures fired == Matches(c, a)
      ensures var raised := if fired then [MakeAlert(a, c, at)] else [];
        && alerts == old(alerts) + raised
        && hub.State() == AfterBroadcastAll(old(hub.State()), AlertFrames(raised, encodeAlert))
    {
      ghost var h0 := hub.State();
      fired := Matches(c, a);
      if !fired {
        return;
      }
      var alert := Alert(a, AlertMessage(a), c, at);
      alerts := alerts + [alert];
      AlertFramesAppendOne([], alert, encodeAlert);
      assert [] + [alert] == [alert];
      var json := encodeAlert(alert);
      if json.Some? {
        var frame := Frame(AlertEvent, json.value);
        hub.Broadcast(frame);
        BroadcastAllAppendOne(h0, [], frame);
      }
    }

    /** GET /api/alerts (main.go:181-187): the log as it is now, in trigger
        order; a sequence is a value, so the caller gets its own copy. */
    method GetAlerts() returns (reply: Reply)
      ensures reply.status == StatusOK
      ensures reply.body.AlertsBody? && reply.body.alerts == alerts
    {
      var snapshot := alerts;
      reply := Reply(StatusOK, AlertsBody(snapshot));
    }

    /** POST /api/alert-criteria (main.go:189-203). */
    method PostCriterion(body: Option<AlertCriteria>) returns (reply: Reply)
      modifies this`criteria
      ensures body.None? ==>
        reply == Reply(StatusBadRequest, Fields(map["error" := "Invalid criteria data"])) && criteria == old(criteria)
      ensures body.Some? ==>
        reply == Reply(StatusCreated, CriterionBody(body.value)) && criteria == old(criteria) + [body.value]
    {
      if body.None? {
        return Reply(StatusBadRequest, Fields(map["error" := "Invalid criteria data"]));
      }
      criteria := criteria + [body.value];
      reply := Reply(StatusCreated, CriterionBody(body.value));
    }

    /** GET /api/events up to the select loop (main.go:205-220): without a
        flusher the request is refused before any client exists; otherwise
        a new client is registered and its stream returned, to be driven by
        `Stream.Pump`. */
    method OpenEvents(flusherOk: bool) returns (reply: Reply, stream: Stream?)
      requires Valid()
      modifies hub
      ensures Valid()
      ensures !flusherOk ==>
        && reply == Reply(StatusInternalServerError, Fields(map["error" := "Streaming unsupported!"]))
        && stream == null
        && hub.State() == old(hub.State())
      ensures flusherOk ==>
        && reply == Reply(StatusOK, EventStream)
        && stream != null && fresh(stream) && stream.hub == hub
        && stream.Valid() && stream.Local() == Endpoint([], [], None)
        && stream.client !in old(hub.sends)
        && hub.State() == AfterRegister(old(hub.State()).(sends := old(hub.sends)[stream.client := Chan([], false)]), stream.client)
    {
      if !flusherOk {
        return Reply(StatusInternalServerError, Fields(map["error" := "Streaming unsupported!"])), null;
      }
      stream := new Stream.Open(hub);
      reply := Reply(StatusOK, EventStream);
    }
  }

  /** With the seed criteria: an aircraft with ICAO AABBCC raises one alert
      whatever its callsign, unless its callsign is TARGET1 as well, in which
      case it raises two, the callsign one first. */
  lemma SeedCriteriaAlerts(a: Aircraft, now: nat -> Time)
    requires a.icao == "AABBCC"
    ensures a.callsign != "TARGET1" ==>
      Evaluate(a, SeedCriteria, now, 1) == [MakeAlert(a, AlertCriteria("AABBCC", ""), now(1))]
    ensures a.callsign == "TARGET1" ==>
      Evaluate(a, SeedCriteria, now, 1)
        == [MakeAlert(a, AlertCriteria("", "TARGET1"), now(1)), MakeAlert(a, AlertCriteria("AABBCC", ""), now(2))]
  {
    assert SeedCriteria[..1] == [AlertCriteria("", "TARGET1")];
    assert SeedCriteria[..1][..0] == [];
  }
}

=== FILE: sse.dfy ===
/**
 Server-Sent Events framing (section 9.2 of the WHATWG HTML Living Standard)
 as the alert server writes it (main.go:146, main.go:172), with a reader for
 line-feed-terminated frames, and the list of frames one ingestion hands to
 the hub (main.go:142-147, main.go:165-173).
 */
module Sse {
  import opened Models

  /** What travels through a client's send queue: one complete frame. */
  type Message = string

  const AircraftUpdateEvent: string := "aircraftUpdate"
  const AlertEvent: string := "alert"

  /** One named event with a one-line data field, closed by a blank line. */
  function Frame(name: string, payload: string): Message {
    "event: " + name + "\ndata: " + payload + "\n\n"
  }

  /** A frame is its event line, its data line and an empty line. */
  lemma FrameLines(name: string, payload: string)
    ensures Frame(name, payload) == "event: " + (name + "\n" + ("data: " + (payload + "\n" + "\n")))
  {
    assert "\ndata: " == "\n" + "data: ";
    assert "\n\n" == "\n" + "\n";
  }

  /** `s` without its leading `prefix`, when it has one. */
  function StripPrefix(prefix: string, s: string): (r: Option<string>)
    ensures r.Some? <==> prefix <= s
    ensures r.Some? ==> s == prefix + r.value
  {
    if prefix <= s then Some(s[|prefix|..]) else None
  }

  /** `s` cut at its first line feed into the line and what follows the
      line feed; `None` when `s` holds no line feed. */
  function SplitLine(s: string): (r: Option<(string, string)>)
    ensures r.None? <==> '\n' !in s
    ensures r.Some? ==> s == r.value.0 + "\n" + r.value.1 && '\n' !in r.value.0
  {
    if s == [] then None
    else if s[0] == '\n' then Some(([], s[1..]))
    else
      match SplitLine(s[1..])
      case None => None
      case Some((line, tail)) => Some(([s[0]] + line, tail))
  }

  lemma {:induction false} SplitLineAtFirstLineFeed(line: string, tail: string)
    requires '\n' !in line
    ensures SplitLine(line + "\n" + tail) == Some((line, tail))
  {
    var s := line + "\n" + tail;
    if line == [] {
      assert s[1..] == tail;
    } else {
      assert s[0] == line[0] && s[1..] == line[1..] + "\n" + tail;
      SplitLineAtFirstLineFeed(line[1..], tail);
      assert [line[0]] + line[1..] == line;
    }
  }

  /** A reader of frames whose lines end in a line feed, as the server writes
      them: an `event` line, a `data` line and the blank line that dispatches
      the event. Carriage returns are ordinary characters to it. */
  function ParseFrame(s: string): Option<(string, string)> {
    match StripPrefix("event: ", s)
    case None => None
    case Some(afterField) =>
      match SplitLine(afterField)
      case None => None
      case Some((name, afterName)) =>
        match StripPrefix("data: ", afterName)
        case None => None
        case Some(afterData) =>
          match SplitLine(afterData)
          case None => None
          case Some((payload, rest)) =>
            if rest == "\n" then Some((name, payload)) else None
  }

  /** The reader recovers the event name and payload of every frame the
      server builds, as long as neither holds a line feed (a JSON encoding
      never does). */
  lemma FrameRoundTrip(name: string, payload: string)
    requires '\n' !in name && '\n' !in payload
    ensures ParseFrame(Frame(name, payload)) == Some((name, payload))
  {
    var afterName := "data: " + (payload + "\n" + "\n");
    FrameLines(name, payload);
    SplitLineAtFirstLineFeed(name, afterName);
    SplitLineAtFirstLineFeed(payload, "\n");
  }

  /** Conversely, whatever a reader accepts as one frame is exactly the frame
      the server would build from the name and payload it reads. */
  lemma ParsedFrameIsFrame(s: string, name: string, payload: string)
    requires ParseFrame(s) == Some((name, payload))
    ensures Frame(name, payload) == s
    ensures '\n' !in name && '\n' !in payload
  {
    var afterField := StripPrefix("event: ", s).value;
    assert s == "event: " + afterField;
    var afterName := SplitLine(afterField).value.1;
    assert afterField == name + "\n" + afterName;
    var afterData := StripPrefix("data: ", afterName).value;
    assert afterName == "data: " + afterData;
    assert afterData == payload + "\n" + "\n";
    FrameLines(name, payload);
  }

  /** The `alert` frames for a run of alerts; an alert whose encoding fails
      gets no frame (the alert itself is still logged by the caller). */
  function AlertFrames(alerts: seq<Alert>, encode: Alert -> Option<string>): (r: seq<Message>)
    ensures |r| <= |alerts|
  {
    if alerts == [] then []
    else
      var n := |alerts| - 1;
      AlertFrames(alerts[..n], encode) +
        match encode(alerts[n])
        case Some(json) => [Frame(AlertEvent, json)]
        case None => []
  }

  lemma {:induction false} AlertFramesAppendOne(alerts: seq<Alert>, x: Alert, encode: Alert -> Option<string>)
    ensures AlertFrames(alerts + [x], encode)
      == AlertFrames(alerts, encode) + match encode(x) case Some(json) => [Frame(AlertEvent, json)] case None => []
  {
    assert (alerts + [x])[..|alerts|] == alerts;
  }

  /** With every encoding successful, frame k is the `alert` frame of alert k. */
  lemma {:induction false} AlertFramesAllEncoded(alerts: seq<Alert>, encode: Alert -> Option<string>)
    requires forall k :: 0 <= k < |alerts| ==> encode(alerts[k]).Some?
    ensures |AlertFrames(alerts, encode)| == |alerts|
    ensures forall k :: 0 <= k < |alerts| ==>
      AlertFrames(alerts, encode)[k] == Frame(AlertEvent, encode(alerts[k]).value)
  {
    if alerts != [] {
      var n := |alerts| - 1;
      assert forall k :: 0 <= k < n ==> alerts[..n][k] == alerts[k];
      AlertFramesAllEncoded(alerts[..n], encode);
    }
  }

  lemma {:induction false} AlertFramesAppend(s: seq<Alert>, t: seq<Alert>, encode: Alert -> Option<string>)
    ensures AlertFrames(s + t, encode) == AlertFrames(s, encode) + AlertFrames(t, encode)
    decreases |t|
  {
    if t != [] {
      var n := |t| - 1;
      assert (s + t)[..|s + t| - 1] == s + t[..n];
      AlertFramesAppend(s, t[..n], encode);
    } else {
      assert s + t == s;
    }
  }

  /** An alert whose encoding fails loses its own frame and no other. */
  lemma FailedEncodingSkipsOnlyItsFrame(before: seq<Alert>, x: Alert, after: seq<Alert>, encode: Alert -> Option<string>)
    requires encode(x).None?
    ensures AlertFrames(before + [x] + after, encode) == AlertFrames(before, encode) + AlertFrames(after, encode)
  {
    AlertFramesAppend(before + [x], after, encode);
    assert (before + [x])[..|before|] == before;
  }

  /** Everything one ingestion broadcasts: the `aircraftUpdate` frame, then one
      `alert` frame per raised alert. */
  function IngestFrames(a: Aircraft, alerts: seq<Alert>,
                        encodeAircraft: Aircraft -> Option<string>,
                        encodeAlert: Alert -> Option<string>): seq<Message>
  {
    (match encodeAircraft(a)
     case Some(json) => [Frame(AircraftUpdateEvent, json)]
     case None => [])
    + AlertFrames(alerts, encodeAlert)
  }

  /** When every encoding succeeds, the aircraft update comes first and the
      alert frames follow in the order of the alerts. */
  lemma IngestFramesOrder(a: Aircraft, alerts: seq<Alert>,
                          encodeAircraft: Aircraft -> Option<string>,
                          encodeAlert: Alert -> Option<string>)
    requires encodeAircraft(a).Some?
    requires forall k :: 0 <= k < |alerts| ==> encodeAlert(alerts[k]).Some?
    ensures |IngestFrames(a, alerts, encodeAircraft, encodeAlert)| == 1 + |alerts|
    ensures IngestFrames(a, alerts, encodeAircraft, encodeAlert)[0]
      == Frame(AircraftUpdateEvent, encodeAircraft(a).value)
    ensures forall k :: 0 <= k < |alerts| ==>
      IngestFrames(a, alerts, encodeAircraft, encodeAlert)[k + 1] == Frame(AlertEvent, encodeAlert(alerts[k]).value)
  {
    AlertFramesAllEncoded(alerts, encodeAlert);
  }
}
